=== FILE: README.md ===
# EyeSelect decision engine in Dafny

A model of the gaze-gesture decision engine of EyeSelect
(`EyeSelect/eyeselect.py`), with proofs about it. The engine receives one
camera frame at a time. The landmark detector reduces each frame to two
pupil positions and two pairs of eyelid ratios. From these the engine
keeps four sliding buffers and measures a snapshot of motion statistics.
It compares the snapshot against a running baseline of medians, and it
decides through a debounced latch/unlatch selector whether a left, right,
up or blink gesture fired.

Modules, one per file:

- `Wrappers` (`wrappers.dfy`): `Option` and `Result`.
- `Statistics` (`statistics.dfy`): `compute_std` as a population
  deviation, axis extents, and the largest pairwise distance.
  - Square roots are a parameter `root` constrained by `IsSquareRoot`.
- `Medians` (`median.dfy`): `np.median` via insertion sort. It proves that
  the sort is a sorted permutation, that the median splits the history,
  and that the median ignores arrival order.
- `Features` (`features.dfy`): the snapshot (`EyeIntermediateObject`) and
  the default thresholds of `process`.
- `Baseline` (`baseline.dfy`): `EyeBaselineTracker`, nine running medians
  that start at the sentinel 9999.0.
- `Gestures` (`gestures.dfy`): the four detect/release predicate pairs.
- `EventSelector` (`selector.dfy`): the registry, the latch flags and the
  debounce window.
  - Time is a parameter `now`.
  - Registry keys are sequence indices. Python dicts keep insertion order,
    so the uuid keys only fix an order.
- `EyeSelect` (`engine.dfy`): construction with its crossed registration,
  `post_detection`, the buffer and snapshot logic of `process`, and the
  order of select and baseline update.

A frame reaches `Process` as `NoFace` or `Face(leftDot, rightDot,
upRatios, downRatios)`. Positions are already integers. A detect that fires
calls the callback of its own name; the model reports it as the `fired`
gesture. When that callback was not supplied, the Python call raises and
the exception leaves `process`; the model returns `Failure(MissingCallback(g))`.

## Model

| member | source | states |
|---|---|---|
| Statistics.ComputeStd | EyeSelect/eyeselect.py:20-26 | exactly (0.0, 0.0) for fewer than two samples; otherwise each component is non-negative and its square is the population variance of that column |
| Statistics.StillColumnHasZeroStd | EyeSelect/eyeselect.py:20-26 | a buffer whose first column never changes has first deviation 0 |
| Statistics.VarianceOfConstant | EyeSelect/eyeselect.py:24-25 | the population variance of a constant sequence is 0 |
| Statistics.SpreadX | EyeSelect/eyeselect.py:341 | `max - min` of the x coordinates is non-negative, bounds every pairwise x difference and is attained by some pair |
| Statistics.SpreadY | EyeSelect/eyeselect.py:343 | the same for the y coordinates |
| Statistics.Extent | EyeSelect/eyeselect.py:341-343 | `max - min` of an integer sequence bounds every difference and is attained |
| Statistics.MaxOf | EyeSelect/eyeselect.py:341 | the maximum is an element and bounds every element |
| Statistics.MinOf | EyeSelect/eyeselect.py:341 | the minimum is an element and is below every element |
| Statistics.MaxSquaredDistance | EyeSelect/eyeselect.py:337-338 | the largest squared distance between two point sets bounds every pair and is attained |
| Statistics.MaxRadius | EyeSelect/eyeselect.py:336-338 | `max(cdist(all, all))` is non-negative, bounds the distance of every pair of buffered points and is attained by a pair |
| Statistics.RootMonotonic | EyeSelect/eyeselect.py:337-338 | the square root is monotone, so the largest distance comes from the largest squared distance |
| Medians.Median | EyeSelect/eyeselect.py:105-113 | `np.median` of a non-empty history; for an odd count the median is one of the observed values (its exact value is `Medians.MedianOfSortedArrangement`, the half/half split `Medians.MedianSplitsHistory`) |
| Medians.MedianOfSortedArrangement | EyeSelect/eyeselect.py:105-113 | for any sorted arrangement of the history, the median is its middle value for an odd count and the mean of its two middle values for an even count |
| Medians.MedianOfTwo | EyeSelect/eyeselect.py:105-113 | two distinct observations give their mean, strictly between them, whatever order they arrived in |
| Medians.SortSortedPermutation | EyeSelect/eyeselect.py:105-113 | the sort behind `np.median` returns a sorted permutation of the history |
| Medians.InsertSortedPermutation | EyeSelect/eyeselect.py:105-113 | inserting into a sorted sequence keeps it sorted and adds exactly the new value |
| Medians.MedianSplitsHistory | EyeSelect/eyeselect.py:105-113 | at least half of the history (rounded up) is at most the median and at least half is at least the median, so it lies between the smallest and largest observation |
| Medians.MedianIgnoresOrder | EyeSelect/eyeselect.py:105-113 | two histories holding the same values have the same median |
| Medians.SortedUnique | EyeSelect/eyeselect.py:105-113 | two sorted sequences with the same values are equal |
| Medians.CountSort | EyeSelect/eyeselect.py:105-113 | sorting does not change how many values satisfy a predicate |
| Baseline.Observe | EyeSelect/eyeselect.py:92-113 | appending an observation extends the history by exactly that value, and the new value has at least half of the history (rounded up) at or below it and at least half at or above it |
| Baseline.AddObj | EyeSelect/eyeselect.py:92-113 | each of the nine statistics of the snapshot is appended to its own history; what the values become is `Baseline.AddObjKeepsValid` and `Baseline.ReplayIsMedianOfObservations` |
| Baseline.CalibratedValueInRange | EyeSelect/eyeselect.py:105-113 | a baseline that has seen something lies between some observation below and some observation above |
| Baseline.CalibratedNonNegative | EyeSelect/eyeselect.py:105-113 | non-negative observations give a non-negative baseline, the sentinel included |
| Baseline.SteadyInputGivesItsValue | EyeSelect/eyeselect.py:81-113 | one observation, or n identical ones, of a value yields that value as the baseline |
| Baseline.AddObjTrack | EyeSelect/eyeselect.py:92-113 | `add_obj` feeds each statistic of the snapshot to its own track |
| Baseline.AddObjKeepsValid | EyeSelect/eyeselect.py:92-113 | `add_obj` keeps every track calibrated and all histories of equal length, each extended by its own statistic |
| Baseline.ReplayIsMedianOfObservations | EyeSelect/eyeselect.py:81-113 | after any sequence of snapshots each baseline is 9999.0 if none was seen and otherwise the median of every value of that statistic seen so far |
| Gestures.Detect | EyeSelect/eyeselect.py:188-238 | the four detect conditions; a snapshot that fires a gesture does not also release it (for up and blink, given a non-negative vertical baseline) |
| Gestures.Release | EyeSelect/eyeselect.py:196-244 | the four release conditions; a release needs the gaze back past the horizontal detect threshold with motion below the baseline, or the vertical motion back below the detect band |
| Gestures.DefaultHorizontalBands | EyeSelect/eyeselect.py:188-216 | under the defaults of `process` (line 247) left and right fire beyond 100 pixels from the centre and release only inside 60, with a dead band between |
| Gestures.DetectExcludesRelease | EyeSelect/eyeselect.py:188-244 | no snapshot both fires and releases the same gesture, given a non-negative vertical baseline for up and blink |
| Gestures.NegativeBaselineOverlapsUpBands | EyeSelect/eyeselect.py:219-230 | without that proviso the up bands overlap: a snapshot can both fire and release up |
| EventSelector.Create | EyeSelect/eyeselect.py:30-38 | a new selector has an empty registry, is not latched, satisfies the selector invariant, opens its debounce window at construction time with the given relaxation, and is therefore relaxing for the first `relaxation` seconds |
| EventSelector.Register | EyeSelect/eyeselect.py:40-45 | registration appends one unlatched entry, changes no flag and keeps the invariant |
| EventSelector.FirstDetected | EyeSelect/eyeselect.py:59-65 | returns the first index from `from` whose detect holds, and only when every earlier one fails |
| EventSelector.Select | EyeSelect/eyeselect.py:47-65 | a no-op inside the debounce window; when idle the first detect in registration order latches its entry and the selector and restarts the window at `now`, and if none fires nothing changes; when latched no detect runs, each latched entry is cleared exactly when its release holds and the aggregate flag clears when some release holds |
| EventSelector.SelectKeepsWellformed | EyeSelect/eyeselect.py:31-65 | `select` keeps at most one entry latched and the aggregate flag true exactly when one is |
| EventSelector.QuietAfterFiring | EyeSelect/eyeselect.py:48-49 | after a detect fires at `now`, every `select` before `now + relaxation` changes nothing |
| EventSelector.DebounceRestartsOnlyOnDetect | EyeSelect/eyeselect.py:36-64 | the debounce timestamp moves only when a detect fires, and then to `now` |
| EyeSelect.CrossedRegistration | EyeSelect/eyeselect.py:168-175 | a detector is registered exactly when the callback of its crossed partner is supplied, none twice, in the order of the constructor parameters (`left_cb, right_cb, blink_cb, up_cb`) that cause them |
| EyeSelect.New | EyeSelect/eyeselect.py:141-177 | a fresh engine has empty buffers, the sentinel baseline and the given callbacks, registers the given detectors in order and unlatched, and opens the 0.5 s debounce window at construction time |
| EyeSelect.RegisterAll | EyeSelect/eyeselect.py:167-175 | registers the given kinds in order after the existing entries, unlatched, keeping the invariant |
| EyeSelect.PostDetection | EyeSelect/eyeselect.py:179-186 | popping `len` items from paired buffers leaves all four empty |
| EyeSelect.PushPositions | EyeSelect/eyeselect.py:294-299 | the position buffers gain the new pair and keep the newest `min(n+1, 20)` pairs, in step; the ratio buffers are untouched |
| EyeSelect.TrimRatios | EyeSelect/eyeselect.py:330-332 | the ratio buffers drop at most their oldest pair, keeping the newest `min(n, 20)`; the position buffers are untouched |
| EyeSelect.Slide | EyeSelect/eyeselect.py:294-299 | each buffer keeps the newest samples, at most 20, the pairs stay in step, and a window below capacity grows by one |
| EyeSelect.Grow | EyeSelect/eyeselect.py:322-323 | the ratio buffers hold the new pair on top of the old window, untrimmed |
| EyeSelect.Measure | EyeSelect/eyeselect.py:312-345 | the snapshot's deviations and extents are non-negative and the position deviations are 0 before two samples; `stdX`/`stdY` average the per-eye deviations of the position buffers, the up and down deviations are per column of the untrimmed ratio buffers, the extents and radius span both position buffers, and the gaze offset is measured from the canvas centre 500 |
| EyeSelect.SnapshotOf | EyeSelect/eyeselect.py:294-368 | positions (deviations, radius and the horizontal and vertical extents) are measured on the window kept after the frame, ratios on the stored window plus the new pair before it is trimmed; the gaze offset is the mean of both eyes' offsets from the canvas centre, and the thresholds are the ones the call was given |
| EyeSelect.RatioDeviationSeesOneExtraSample | EyeSelect/eyeselect.py:322-332 | with a full ratio window the up deviations are those of 21 samples, while the window kept afterwards holds 20 |
| EyeSelect.Decide | EyeSelect/eyeselect.py:188-244 | the fired gesture is the first registered detector that accepts the snapshot against the previous baseline, and has its callback; the buffers are then empty, only that entry's flag is set (every other entry unchanged), the selector latched and the debounce restarted at `now`; an idle frame outside the window that fires nothing leaves the selector as it was; while latched no detector runs, each latched entry whose release accepts is cleared, and the selector's flag clears when one does; otherwise the slid buffers stay; the modelled failure is a fired detector without a callback; the baseline absorbs the snapshot after the decision |
| EyeSelect.ReleaseReturnsToIdle | EyeSelect/eyeselect.py:51-57 | on a valid latched engine, a release of the latched entry leaves no entry latched, fires nothing and keeps the slid buffers |
| EyeSelect.Process | EyeSelect/eyeselect.py:247-371 | a frame without a face changes nothing; otherwise the buffers stay paired, a detection leaves them empty and a quiet frame leaves the slid window; the gesture that fires (or fails for want of a callback) is the first registered detector accepting the frame's snapshot against the baseline as it was before the frame, and the baseline then absorbs that snapshot |
| EyeSelect.NewIsValid | EyeSelect/eyeselect.py:141-177 | a fresh engine satisfies the engine invariant and is not latched |
| EyeSelect.DecideKeepsValid | EyeSelect/eyeselect.py:370-371 | the decision step keeps the engine invariant |
| EyeSelect.ProcessKeepsValid | EyeSelect/eyeselect.py:247-371 | a whole `process` call keeps the invariant: buffers paired and within 20, at most one latched entry, every baseline the median of its history |
| EyeSelect.NoChatter | EyeSelect/eyeselect.py:188-244 | on a reachable engine no snapshot both fires and releases the same gesture |
| EyeSelect.QuietAfterConstruction | EyeSelect/eyeselect.py:36-49 | during the first 0.5 s after construction no detector fires and the selector does not change |
| EyeSelect.QuietAfterDetection | EyeSelect/eyeselect.py:47-49 | after a detection at `now`, any snapshot before `now + relaxation` fires nothing and leaves the selector unchanged |
| EyeSelect.CoveredNeverFails | EyeSelect/eyeselect.py:188-244 | an engine whose registered detectors all have callbacks never fails and stays so |
| EyeSelect.CoveredProcessNeverFails | EyeSelect/eyeselect.py:247-371 | the same for a whole `process` call |
| EyeSelect.NewCovered | EyeSelect/eyeselect.py:167-175 | a fresh engine has callbacks for all its detectors exactly when every registration names a supplied callback |
| EyeSelect.CrossedRegistrationNamesSupplied | EyeSelect/eyeselect.py:168-175 | the crossed registration names only supplied callbacks exactly when the callbacks are closed under swapping left/right and blink/up |
| EyeSelect.CrossedRegistrationCovered | EyeSelect/eyeselect.py:168-175 | hence the constructor is safe exactly for such callback sets |
| EyeSelect.CrossedRegistrationMisfires | EyeSelect/eyeselect.py:168-169 | with only `left_cb`, the right detector is registered alone, and when it fires `process` fails for want of `right_cb` |
| EyeSelect.CrossedRegistrationPrefersRight | EyeSelect/eyeselect.py:168-175 | with all four callbacks the registry is right, left, up, blink, so a snapshot the right detector accepts fires right whatever the others say |
| EyeSelect.OwnRegistration | EyeSelect/eyeselect.py:168-175 | the corrected registration: a detector is registered exactly when its own callback is supplied, in parameter order |
| EyeSelect.OwnRegistrationIsCovered | EyeSelect/eyeselect.py:168-175 | with the corrected registration every callback subset gives an engine that never fails |

## Left out

- Landmark extraction (`FaceFinder`, `Face`, `VideoCapture`) is not part of this model. A frame arrives as the integer dot positions and the ratio pairs those collaborators yield.
- The normalisation of the pupils against the eye corners and the ratio divisions (`EyeSelect/eyeselect.py:267-283`, `322-323`) are floating point with possible division by zero. They are replaced by the values they produce.
- The truncating `int()` casts (lines 292-293) are absorbed into the frame, whose dots are already integers.
- OpenCV drawing and display (`EyeSelect/eyeselect.py:286-310`), the `recoverable` decorator and the `__main__` loop are UI and I/O.
- `time.time()` becomes the parameter `now`, and `uuid4` keys become registry positions.
- EventSelector.Select: reads one `now` per frame. The source reads the clock twice: once for the window check (line 48) and again after the firing callback and `post_detection` return, to restart the window (line 64). The model restarts the window at the start of the frame, which is the earlier of the two times, so `QuietAfterFiring` and `QuietAfterDetection` promise a window no longer than the source's.
- Square roots in `np.std`, `distance` and `cdist` are the parameter `root`. It is only required to be a true square root on non-negative reals; floating-point rounding is not modelled.
- All floating-point arithmetic is exact `real` arithmetic: the means in `np.median` and the gaze offsets, the `* 1.25` and `* 1.5` bands of the detectors and releases, and the deviations. Rounding, overflow, `inf` and `nan` are not modelled.
- The `relaxation_tracker` return value is telemetry. It divides by the baseline and by `left_th + 40`, so it is left out; `Process` returns the fired gesture instead.
- The exceptions those divisions can raise are left out with them. While latched, a release computes `relaxation_tracker` first (lines 198, 214, 228, 242). A zero threshold denominator there raises `ZeroDivisionError` out of `process`: `left_th == -40` in a left release (line 198) or `right_th == -40` in a right release (line 214). The model only fails on a missing callback. A zero baseline denominator does not raise, because the baselines are numpy floats (`np.median`, or the 9999.0 sentinel), so the release decision the model takes there is the source's own.
- State that is written but never read for control is left out: `debouncing`, `baseline_y_u/d`, `last_detection`, `EyeSelect.debouncing_start`, and the pupil and lid fields of the snapshot. `up_th` is carried in `Features.Thresholds` (as `up`) but, as in the source, no predicate reads it.
- `eyeselect.py` at the repository root is a superseded copy that cannot be constructed. `main.py` only wires a camera to `process`.
- A missing callback is modelled as a failure with no successor state. The Python objects keep their mutated buffers after the exception, but the caller shown does not catch it.
- Statistics.ComputeStd: states the deviations through their squares (the variance). The converse "zero deviation means a constant column" is not proved.

## Findings

| source | as written | input that shows it | evidently intended | confidence | as-written member | corrected member |
|---|---|---|---|---|---|---|
| EyeSelect/eyeselect.py:168-175 | each supplied callback registers the detector of the opposite gesture (`left_cb` registers `__right`), while each detector calls the callback of its own name | `EyeSelect(left_cb=f)`: the right detector is registered alone and, when it fires, calls `right_cb`, which is `None` | each supplied callback registers the detector that calls it, so any subset of callbacks is safe | medium, not executed (with all four callbacks supplied, as `main.py` does, the crossing is harmless) | EyeSelect.CrossedRegistrationMisfires | EyeSelect.OwnRegistrationIsCovered |

=== FILE: baseline.dfy ===
/** `EyeBaselineTracker`: one running median per statistic over the whole,
    never trimmed, history of observed snapshots. */
module Baseline {
  import opened Medians
  import opened Features

  /** The value every baseline holds before its first observation. */
  const Sentinel: real := 9999.0

  /** The history of one statistic and the median last computed from it. */
  datatype Track = Track(history: seq<real>, value: real)

  const Fresh: Track := Track([], Sentinel)

  /** The stored value is the sentinel while nothing was observed and the
      median of the history afterwards. */
  ghost predicate Calibrated(t: Track) {
    if |t.history| == 0 then t.value == Sentinel else t.value == Median(t.history)
  }

  /** Appends one observation and recomputes the median: the new value
      has at least half of the history (rounded up) at or below it and at
      least half at or above it. */
  function Observe(t: Track, v: real): (r: Track)
    ensures r.history == t.history + [v]
    ensures CountAtMost(r.history, r.value) >= (|r.history| + 1) / 2
    ensures CountAtLeast(r.history, r.value) >= (|r.history| + 1) / 2
  {
    var h := t.history + [v];
    MedianSplitsHistory(h);
    Track(h, Median(h))
  }

  /** A calibrated value that has seen something lies between the smallest
      and the largest observation. */
  lemma CalibratedValueInRange(t: Track)
    requires Calibrated(t) && |t.history| > 0
    ensures exists i :: 0 <= i < |t.history| && t.history[i] <= t.value
    ensures exists j :: 0 <= j < |t.history| && t.value <= t.history[j]
  {
    MedianSplitsHistory(t.history);
  }

  /** Non-negative observations keep the baseline non-negative. */
  lemma CalibratedNonNegative(t: Track)
    requires Calibrated(t)
    requires forall i :: 0 <= i < |t.history| ==> 0.0 <= t.history[i]
    ensures 0.0 <= t.value
  {
    if |t.history| > 0 {
      CalibratedValueInRange(t);
    }
  }

  function ObserveRepeatedly(t: Track, v: real, n: nat): Track
    decreases n
  {
    if n == 0 then t else ObserveRepeatedly(Observe(t, v), v, n - 1)
  }

  /** A track that has only ever seen `v`, and holds `v`. */
  ghost predicate Steady(r: Track, v: real) {
    |r.history| > 0 && r.value == v && forall i :: 0 <= i < |r.history| ==> r.history[i] == v
  }

  lemma ObserveKeepsSteady(t: Track, v: real)
    requires forall i :: 0 <= i < |t.history| ==> t.history[i] == v
    ensures Steady(Observe(t, v), v)
  {
    var r := Observe(t, v);
    assert forall i :: 0 <= i < |r.history| ==> r.history[i] == v;
    CalibratedValueInRange(r);
  }

  lemma {:induction false} SteadyHistory(t: Track, v: real, n: nat)
    requires forall i :: 0 <= i < |t.history| ==> t.history[i] == v
    requires n > 0 || Steady(t, v)
    decreases n
    ensures Steady(ObserveRepeatedly(t, v, n), v)
  {
    if n > 0 {
      var t' := Observe(t, v);
      ObserveKeepsSteady(t, v);
      SteadyHistory(t', v, n - 1);
      assert ObserveRepeatedly(t, v, n) == ObserveRepeatedly(t', v, n - 1);
    }
  }

  /** Feeding the same value n >= 1 times to a fresh baseline yields that
      value, whatever n is. */
  lemma SteadyInputGivesItsValue(v: real, n: nat)
    requires n >= 1
    ensures ObserveRepeatedly(Fresh, v, n).value == v
  {
    SteadyHistory(Fresh, v, n);
  }

  // ---------------------------------------------------------------------
  // The nine tracks

  datatype Tracker = Tracker(
    stdX: Track,
    stdY: Track,
    xyStd: Track,
    dStdR: Track,
    dStdL: Track,
    uStdR: Track,
    uStdL: Track,
    maxDistX: Track,
    maxDistY: Track)

  const Initial: Tracker := Tracker(Fresh, Fresh, Fresh, Fresh, Fresh, Fresh, Fresh, Fresh, Fresh)

  function Get(b: Tracker, k: Statistic): Track {
    match k
    case StdX => b.stdX
    case StdY => b.stdY
    case XyStd => b.xyStd
    case DStdR => b.dStdR
    case DStdL => b.dStdL
    case UStdR => b.uStdR
    case UStdL => b.uStdL
    case MaxDistX => b.maxDistX
    case MaxDistY => b.maxDistY
  }

  /** Every track is calibrated and all have seen the same number of
      snapshots. */
  ghost predicate Valid(b: Tracker) {
    forall k :: Calibrated(Get(b, k)) && |Get(b, k).history| == |b.stdX.history|
  }

  /** `add_obj`: every statistic of the snapshot joins its own history and
      every median is recomputed. */
  function AddObj(b: Tracker, s: Snapshot): (r: Tracker)
    ensures r.stdX.history == b.stdX.history + [s.stdX] && r.stdY.history == b.stdY.history + [s.stdY]
    ensures r.xyStd.history == b.xyStd.history + [s.xyStd]
    ensures r.dStdR.history == b.dStdR.history + [s.dStdR] && r.dStdL.history == b.dStdL.history + [s.dStdL]
    ensures r.uStdR.history == b.uStdR.history + [s.uStdR] && r.uStdL.history == b.uStdL.history + [s.uStdL]
    ensures r.maxDistX.history == b.maxDistX.history + [s.maxDistX]
    ensures r.maxDistY.history == b.maxDistY.history + [s.maxDistY]
  {
    Tracker(
      Observe(b.stdX, s.stdX),
      Observe(b.stdY, s.stdY),
      Observe(b.xyStd, s.xyStd),
      Observe(b.dStdR, s.dStdR),
      Observe(b.dStdL, s.dStdL),
      Observe(b.uStdR, s.uStdR),
      Observe(b.uStdL, s.uStdL),
      Observe(b.maxDistX, s.maxDistX),
      Observe(b.maxDistY, s.maxDistY))
  }

  lemma AddObjTrack(b: Tracker, s: Snapshot, k: Statistic)
    ensures Get(AddObj(b, s), k) == Observe(Get(b, k), Read(s, k))
  {
    match k
    case StdX =>
    case StdY =>
    case XyStd =>
    case DStdR =>
    case DStdL =>
    case UStdR =>
    case UStdL =>
    case MaxDistX =>
    case MaxDistY =>
  }

  /** `add_obj` keeps every track calibrated and the histories in step. */
  lemma AddObjKeepsValid(b: Tracker, s: Snapshot)
    requires Valid(b)
    ensures Valid(AddObj(b, s))
    ensures forall k :: Get(AddObj(b, s), k).history == Get(b, k).history + [Read(s, k)]
  {
    var r := AddObj(b, s);
    forall k
      ensures Calibrated(Get(r, k)) && |Get(r, k).history| == |r.stdX.history|
      ensures Get(r, k).history == Get(b, k).history + [Read(s, k)]
    {
      AddObjTrack(b, s, k);
      AddObjTrack(b, s, StdX);
      assert |Get(b, k).history| == |b.stdX.history|;
    }
  }

  /** The tracker after absorbing `snaps` in order, starting from `Initial`. */
  function Replay(snaps: seq<Snapshot>): Tracker {
    if |snaps| == 0 then Initial else AddObj(Replay(snaps[..|snaps| - 1]), snaps[|snaps| - 1])
  }

  function Observed(snaps: seq<Snapshot>, k: Statistic): (h: seq<real>)
    ensures |h| == |snaps|
    ensures forall i :: 0 <= i < |snaps| ==> h[i] == Read(snaps[i], k)
  {
    seq(|snaps|, i requires 0 <= i < |snaps| => Read(snaps[i], k))
  }

  lemma ReplayStep(snaps: seq<Snapshot>, k: Statistic)
    requires |snaps| > 0
    ensures Get(Replay(snaps), k)
      == Observe(Get(Replay(snaps[..|snaps| - 1]), k), Read(snaps[|snaps| - 1], k))
  {
    var n := |snaps| - 1;
    var prev := Replay(snaps[..n]);
    assert Replay(snaps) == AddObj(prev, snaps[n]);
    AddObjTrack(prev, snaps[n], k);
  }

  lemma ObservedStep(snaps: seq<Snapshot>, k: Statistic)
    requires |snaps| > 0
    ensures Observed(snaps, k)
      == Observed(snaps[..|snaps| - 1], k) + [Read(snaps[|snaps| - 1], k)]
  {
    var n := |snaps| - 1;
    var h, h' := Observed(snaps[..n], k), Observed(snaps, k);
    forall i | 0 <= i < |h'|
      ensures h'[i] == (h + [Read(snaps[n], k)])[i]
    {
      if i < n {
        assert snaps[..n][i] == snaps[i];
      }
    }
  }

  /** Each baseline value is the sentinel before the first snapshot and the
      median of every value of that statistic observed so far afterwards. */
  lemma {:induction false} ReplayIsMedianOfObservations(snaps: seq<Snapshot>, k: Statistic)
    ensures Get(Replay(snaps), k).history == Observed(snaps, k)
    ensures |snaps| == 0 ==> Get(Replay(snaps), k).value == Sentinel
    ensures |snaps| > 0 ==> Get(Replay(snaps), k).value == Median(Observed(snaps, k))
  {
    if |snaps| == 0 {
      assert Get(Initial, k) == Fresh;
    } else {
      ReplayIsMedianOfObservations(snaps[..|snaps| - 1], k);
      ReplayStep(snaps, k);
      ObservedStep(snaps, k);
    }
  }
}

=== FILE: engine.dfy ===
/** `EyeSelect.process` and its surroundings: the sliding buffers, the
    snapshot assembled from them, and the order in which one frame flows
    through the event selector and then the baseline tracker.

    The landmark collaborator's output arrives as a `Frame`: either no face,
    or the two pupils' canvas positions (already normalised against the eye
    corners and truncated to integers) together with the (left, right)
    pairs of upper and lower corner ratios. */
module EyeSelect {
  import opened Wrappers
  import opened Statistics
  import opened Features
  import opened Gestures
  import Baseline
  import EventSelector

  /** The sliding-window length of all four buffers. */
  const Capacity: nat := 20

  /** The virtual canvas of `process` (`width, height = 1000, 1000`). */
  const CanvasWidth: real := 1000.0
  const CanvasHeight: real := 1000.0

  /** The constant `x_y_std = 40` copied into every snapshot. */
  const MotionStd: real := 40.0

  datatype Buffers = Buffers(left: seq<Point>, right: seq<Point>, up: seq<Sample>, down: seq<Sample>)

  const EmptyBuffers: Buffers := Buffers([], [], [], [])

  /** The buffers are pushed and popped in pairs. */
  predicate Lockstep(b: Buffers) {
    |b.left| == |b.right| && |b.up| == |b.down|
  }

  datatype Frame =
    | NoFace
    | Face(leftDot: Point, rightDot: Point, upRatios: Sample, downRatios: Sample)

  datatype Engine = Engine(
    buffers: Buffers,
    baseline: Baseline.Tracker,
    selector: EventSelector.Selector<Gesture>,
    callbacks: set<Gesture>)

  /** A detect fired whose own callback was not supplied: calling `None`
      raises, and the exception leaves `process`. */
  datatype Error = MissingCallback(gesture: Gesture)

  datatype Outcome = Outcome(engine: Engine, fired: Option<Gesture>)

  function Min(a: int, b: int): int {
    if a <= b then a else b
  }

  // ---------------------------------------------------------------------
  // Construction

  /** The gesture whose detector `__init__` registers when the callback of
      `g` is supplied. */
  function Crossed(g: Gesture): Gesture {
    match g
    case Left => Right
    case Right => Left
    case Blink => Up
    case Up => Blink
  }

  /** The position of a gesture's callback among the constructor's
      parameters `left_cb, right_cb, blink_cb, up_cb`. */
  function ParameterIndex(g: Gesture): nat {
    match g
    case Left => 0
    case Right => 1
    case Blink => 2
    case Up => 3
  }

  /** The registrations `EyeSelect.__init__` performs, in order: `left_cb`
      registers the right detector, `right_cb` the left one, `blink_cb` the
      up one and `up_cb` the blink one. */
  function CrossedRegistration(callbacks: set<Gesture>): (r: seq<Gesture>)
    ensures forall g :: g in r <==> Crossed(g) in callbacks
    // in the order of the parameters whose callbacks cause them
    ensures forall i, j :: 0 <= i < j < |r| ==> ParameterIndex(Crossed(r[i])) < ParameterIndex(Crossed(r[j]))
    ensures forall i, j :: 0 <= i < j < |r| ==> r[i] != r[j]
  {
    (if Left in callbacks then [Right] else [])
    + (if Right in callbacks then [Left] else [])
    + (if Blink in callbacks then [Up] else [])
    + (if Up in callbacks then [Blink] else [])
  }

  function RegisterAll(s: EventSelector.Selector<Gesture>, kinds: seq<Gesture>): (r: EventSelector.Selector<Gesture>)
    ensures |r.registry| == |s.registry| + |kinds|
    ensures forall i :: 0 <= i < |s.registry| ==> r.registry[i] == s.registry[i]
    ensures forall i :: 0 <= i < |kinds| ==> r.registry[|s.registry| + i] == EventSelector.Entry(kinds[i], false)
    ensures r.latched == s.latched && r.debounceStart == s.debounceStart && r.relaxation == s.relaxation
    ensures EventSelector.Wellformed(s) ==> EventSelector.Wellformed(r)
  {
    if |kinds| == 0 then s
    else EventSelector.Register(RegisterAll(s, kinds[..|kinds| - 1]), kinds[|kinds| - 1])
  }

  /** `EyeSelect.__init__` at time `now`, registering `registrations` in
      order (`CrossedRegistration(callbacks)` is what the source does). */
  function New(callbacks: set<Gesture>, registrations: seq<Gesture>, now: real): (e: Engine)
    ensures e.buffers == EmptyBuffers && e.baseline == Baseline.Initial && e.callbacks == callbacks
    ensures |e.selector.registry| == |registrations|
    ensures forall i :: 0 <= i < |registrations| ==>
      e.selector.registry[i] == EventSelector.Entry(registrations[i], false)
    ensures !e.selector.latched
    // the debounce window opens at construction
    ensures e.selector.debounceStart == now && e.selector.relaxation == EventSelector.DefaultRelaxation
  {
    Engine(
      EmptyBuffers,
      Baseline.Initial,
      RegisterAll(EventSelector.Create(now, EventSelector.DefaultRelaxation), registrations),
      callbacks)
  }

  // ---------------------------------------------------------------------
  // One frame

  /** `post_detection`: pops `len(l_buffer)` items from both position
      buffers and `len(u_buffer)` items from both ratio buffers. */
  function PostDetection(b: Buffers): (r: Buffers)
    requires Lockstep(b)
    ensures r == EmptyBuffers
  {
    Buffers(b.left[|b.left|..], b.right[|b.left|..], b.up[|b.up|..], b.down[|b.up|..])
  }

  /** Appends one position per eye, then drops the oldest pair once the
      right buffer holds more than `Capacity`. */
  function PushPositions(b: Buffers, l: Point, r: Point): (p: Buffers)
    requires |b.left| == |b.right|
    ensures |p.left| == |p.right| && p.up == b.up && p.down == b.down
    ensures |b.left| <= Capacity ==> |p.left| == Min(|b.left| + 1, Capacity)
    ensures 0 < |p.left| <= |b.left| + 1
    ensures p.left == (b.left + [l])[|b.left| + 1 - |p.left|..]
    ensures p.right == (b.right + [r])[|b.right| + 1 - |p.right|..]
  {
    var left, right := b.left + [l], b.right + [r];
    if |right| > Capacity then b.(left := left[1..], right := right[1..])
    else b.(left := left, right := right)
  }

  /** Appends one ratio pair to each ratio buffer (no trimming yet). */
  function PushRatios(b: Buffers, u: Sample, d: Sample): Buffers {
    b.(up := b.up + [u], down := b.down + [d])
  }

  /** Drops the oldest ratio pair once the down buffer holds more than
      `Capacity`. */
  function TrimRatios(b: Buffers): (t: Buffers)
    requires |b.up| == |b.down|
    ensures |t.up| == |t.down| && t.left == b.left && t.right == b.right
    ensures |b.up| <= Capacity + 1 ==> |t.up| == Min(|b.up|, Capacity)
    ensures |b.up| - 1 <= |t.up| <= |b.up|
    ensures t.up == b.up[|b.up| - |t.up|..] && t.down == b.down[|b.down| - |t.down|..]
  {
    if |b.down| > Capacity then b.(up := b.up[1..], down := b.down[1..]) else b
  }

  /** The buffers just before the ratio buffers are trimmed: positions
      pushed and trimmed, ratios pushed. */
  function Grow(b: Buffers, l: Point, r: Point, u: Sample, d: Sample): (g: Buffers)
    requires Lockstep(b)
    ensures Lockstep(g)
    ensures g.up == b.up + [u] && g.down == b.down + [d]
    ensures g.left == PushPositions(b, l, r).left && g.right == PushPositions(b, l, r).right
  {
    PushRatios(PushPositions(b, l, r), u, d)
  }

  /** The buffers `process` leaves behind for a frame with a face (before
      any detection clears them). */
  function Slide(b: Buffers, l: Point, r: Point, u: Sample, d: Sample): (s: Buffers)
    requires Lockstep(b)
    ensures Lockstep(s)
    ensures |b.left| <= Capacity ==> |s.left| == Min(|b.left| + 1, Capacity)
    ensures |b.up| <= Capacity ==> |s.up| == Min(|b.up| + 1, Capacity)
    ensures 0 < |s.left| <= |b.left| + 1 && 0 < |s.up| <= |b.up| + 1
    // each window keeps the newest samples, the oldest being evicted first
    ensures s.left == (b.left + [l])[|b.left| + 1 - |s.left|..]
    ensures s.right == (b.right + [r])[|b.right| + 1 - |s.right|..]
    ensures s.up == (b.up + [u])[|b.up| + 1 - |s.up|..]
    ensures s.down == (b.down + [d])[|b.down| + 1 - |s.down|..]
    ensures s.left == Grow(b, l, r, u, d).left && s.right == Grow(b, l, r, u, d).right
  {
    var g := Grow(b, l, r, u, d);
    var p := PushPositions(b, l, r);
    var t := TrimRatios(g);
    assert t.left == p.left && t.right == p.right;
    assert t.up == (b.up + [u])[|b.up| + 1 - |t.up|..];
    assert t.down == (b.down + [d])[|b.down| + 1 - |t.down|..];
    t
  }

  /** Lines 312-368 of `process`: the snapshot measured on the grown
      buffers `g`, for the frame whose dots are `leftDot` and `rightDot`. */
  function Measure(g: Buffers, leftDot: Point, rightDot: Point, th: Thresholds, root: Root): (s: Snapshot)
    requires |g.left| > 0 && |g.right| > 0
    requires IsSquareRoot(root)
    ensures s.th == th && s.xyStd == MotionStd
    ensures s.x == ((leftDot.x as real - CanvasWidth / 2.0) + (rightDot.x as real - CanvasWidth / 2.0)) / 2.0
    ensures s.y == ((leftDot.y as real - CanvasHeight / 2.0) + (rightDot.y as real - CanvasHeight / 2.0)) / 2.0
    ensures 0.0 <= s.stdX && 0.0 <= s.stdY
    ensures |g.left| < 2 && |g.right| < 2 ==> s.stdX == 0.0 && s.stdY == 0.0
    ensures 0.0 <= s.uStdR && 0.0 <= s.uStdL && 0.0 <= s.dStdR && 0.0 <= s.dStdL
    ensures |g.up| < 2 ==> s.uStdR == 0.0 && s.uStdL == 0.0
    ensures 0.0 <= s.maxDistX && 0.0 <= s.maxDistY && 0.0 <= s.maxRadius
    // where each statistic comes from: the motion deviations average the
    // two position buffers, the ratio deviations are per column of the
    // (untrimmed) ratio buffers, the extents span both position buffers
    ensures s.stdX == (ComputeStd(AsSamples(g.left), root).0 + ComputeStd(AsSamples(g.right), root).0) / 2.0
    ensures s.stdY == (ComputeStd(AsSamples(g.left), root).1 + ComputeStd(AsSamples(g.right), root).1) / 2.0
    ensures (s.uStdR, s.uStdL) == ComputeStd(g.up, root)
    ensures (s.dStdR, s.dStdL) == ComputeStd(g.down, root)
    ensures s.maxRadius == MaxRadius(g.left + g.right, root)
    ensures s.maxDistX == SpreadX(g.left + g.right) && s.maxDistY == SpreadY(g.left + g.right)
  {
    var lStd := ComputeStd(AsSamples(g.left), root);
    var rStd := ComputeStd(AsSamples(g.right), root);
    // compute_std returns (first column, second column); the source names
    // them (u_std_r, u_std_l) although the first column is the left eye's.
    var uStd := ComputeStd(g.up, root);
    var dStd := ComputeStd(g.down, root);
    var all := g.left + g.right;
    Snapshot(
      ((leftDot.x as real - CanvasWidth / 2.0) + (rightDot.x as real - CanvasWidth / 2.0)) / 2.0,
      ((leftDot.y as real - CanvasHeight / 2.0) + (rightDot.y as real - CanvasHeight / 2.0)) / 2.0,
      (lStd.0 + rStd.0) / 2.0,
      (lStd.1 + rStd.1) / 2.0,
      MotionStd,
      dStd.0, dStd.1, uStd.0, uStd.1,
      th,
      MaxRadius(all, root),
      SpreadX(all),
      SpreadY(all))
  }

  /** The snapshot `process` builds for a frame with a face. */
  function SnapshotOf(b: Buffers, frame: Frame, th: Thresholds, root: Root): (s: Snapshot)
    requires Lockstep(b) && frame.Face?
    requires IsSquareRoot(root)
    // positions are measured on the window kept after the frame, ratios on
    // the stored window plus the new pair, before it is trimmed
    ensures var kept := Slide(b, frame.leftDot, frame.rightDot, frame.upRatios, frame.downRatios);
      && s.stdX == (ComputeStd(AsSamples(kept.left), root).0 + ComputeStd(AsSamples(kept.right), root).0) / 2.0
      && s.stdY == (ComputeStd(AsSamples(kept.left), root).1 + ComputeStd(AsSamples(kept.right), root).1) / 2.0
      && s.maxRadius == MaxRadius(kept.left + kept.right, root)
      && s.maxDistX == SpreadX(kept.left + kept.right)
      && s.maxDistY == SpreadY(kept.left + kept.right)
    // the gaze offset is the mean of both eyes' offsets from the canvas
    // centre; the thresholds are the ones this call was given
    ensures s.x == ((frame.leftDot.x as real - CanvasWidth / 2.0) + (frame.rightDot.x as real - CanvasWidth / 2.0)) / 2.0
    ensures s.y == ((frame.leftDot.y as real - CanvasHeight / 2.0) + (frame.rightDot.y as real - CanvasHeight / 2.0)) / 2.0
    ensures s.th == th && s.xyStd == MotionStd
    ensures (s.uStdR, s.uStdL) == ComputeStd(b.up + [frame.upRatios], root)
    ensures (s.dStdR, s.dStdL) == ComputeStd(b.down + [frame.downRatios], root)
  {
    Measure(Grow(b, frame.leftDot, frame.rightDot, frame.upRatios, frame.downRatios),
            frame.leftDot, frame.rightDot, th, root)
  }

  /** Whether some registry entry holds the detector of `g`. */
  predicate Registered(s: EventSelector.Selector<Gesture>, g: Gesture) {
    exists i :: 0 <= i < |s.registry| && s.registry[i].kind == g
  }

  /** `g` is the kind of the first registry entry whose detector accepts
      `snap` against the baseline `b`: the entry `select` picks. */
  predicate FirstAccepting(s: EventSelector.Selector<Gesture>, g: Gesture, snap: Snapshot, b: Baseline.Tracker) {
    exists i :: 0 <= i < |s.registry| && s.registry[i].kind == g && Detect(g, snap, b)
      && forall j :: 0 <= j < i ==> !Detect(s.registry[j].kind, snap, b)
  }

  /** Some latched entry's release accepts `snap` against the baseline `b`. */
  predicate SomeReleaseAccepts(s: EventSelector.Selector<Gesture>, snap: Snapshot, b: Baseline.Tracker) {
    exists i :: 0 <= i < |s.registry| && s.registry[i].latched && Release(s.registry[i].kind, snap, b)
  }

  /** Lines 370-371 of `process` with the detect side effects: the
      selector runs on `snap` against the baseline as it was before this
      frame, and only then does the baseline absorb `snap`. A detect that
      fires calls its own callback (failing when it was not supplied) and
      empties the buffers `slid`. */
  function Decide(e: Engine, slid: Buffers, snap: Snapshot, now: real): (r: Result<Outcome, Error>)
    requires Lockstep(slid)
    ensures r.Success? ==>
      && Lockstep(r.value.engine.buffers)
      && r.value.engine.callbacks == e.callbacks
      && r.value.engine.baseline == Baseline.AddObj(e.baseline, snap)
      && |r.value.engine.selector.registry| == |e.selector.registry|
      && (forall i :: 0 <= i < |e.selector.registry| ==>
            r.value.engine.selector.registry[i].kind == e.selector.registry[i].kind)
      && r.value.engine.selector.relaxation == e.selector.relaxation
    ensures EventSelector.Relaxing(e.selector, now) ==>
      r.Success? && r.value.fired.None? && r.value.engine.selector == e.selector
    // a detect that fires: its callback ran, the buffers are empty, the
    // selector is latched and the debounce window restarts at `now`
    ensures r.Success? && r.value.fired.Some? ==>
      var g := r.value.fired.value;
      && g in e.callbacks
      && FirstAccepting(e.selector, g, snap, e.baseline)
      && !EventSelector.Relaxing(e.selector, now) && !e.selector.latched
      && Detect(g, snap, e.baseline)
      && r.value.engine.buffers == EmptyBuffers
      && r.value.engine.selector.latched
      && r.value.engine.selector.debounceStart == now
    // the flag set is the firing entry's own; every other entry is as it was
    ensures r.Success? && r.value.fired.Some? ==>
      exists i :: 0 <= i < |e.selector.registry|
        && e.selector.registry[i].kind == r.value.fired.value
        && (forall j :: 0 <= j < i ==> !Detect(e.selector.registry[j].kind, snap, e.baseline))
        && r.value.engine.selector.registry == e.selector.registry[i := EventSelector.Entry(r.value.fired.value, true)]
    ensures r.Success? && r.value.fired.None? ==>
      && r.value.engine.buffers == slid
      && r.value.engine.selector.debounceStart == e.selector.debounceStart
    // an idle selector outside the debounce window that fires nothing
    // means no registered detector accepts the snapshot
    ensures r.Success? && r.value.fired.None? && !EventSelector.Relaxing(e.selector, now) && !e.selector.latched ==>
      && (forall g :: Registered(e.selector, g) ==> !Detect(g, snap, e.baseline))
      && r.value.engine.selector == e.selector
    // latched: no detector runs; each latched entry whose release accepts
    // the snapshot (against the previous baseline) is cleared, and so is
    // the selector's flag
    ensures !EventSelector.Relaxing(e.selector, now) && e.selector.latched ==>
      && r.Success? && r.value.fired.None?
      && (forall i :: 0 <= i < |e.selector.registry| ==>
            r.value.engine.selector.registry[i].latched
              == (e.selector.registry[i].latched && !Release(e.selector.registry[i].kind, snap, e.baseline)))
      && (r.value.engine.selector.latched <==> !SomeReleaseAccepts(e.selector, snap, e.baseline))
    // a failure: the first accepting detector has no callback
    ensures r.Failure? ==>
      var g := r.error.gesture;
      && g !in e.callbacks
      && FirstAccepting(e.selector, g, snap, e.baseline)
      && !EventSelector.Relaxing(e.selector, now) && !e.selector.latched
      && Detect(g, snap, e.baseline)
  {
    var step := EventSelector.Select(e.selector, now,
      k => Detect(k, snap, e.baseline), k => Release(k, snap, e.baseline));
    var baseline := Baseline.AddObj(e.baseline, snap);
    assert step.fired.Some? ==>
      var i := step.fired.value;
      && i < |e.selector.registry|
      && Detect(e.selector.registry[i].kind, snap, e.baseline)
      && forall j :: 0 <= j < i ==> !Detect(e.selector.registry[j].kind, snap, e.baseline);
    match step.fired
    case None =>
      Success(Outcome(e.(buffers := slid, baseline := baseline, selector := step.selector), None))
    case Some(i) =>
      var g := e.selector.registry[i].kind;
      if g !in e.callbacks then Failure(MissingCallback(g))
      else Success(Outcome(e.(buffers := PostDetection(slid), baseline := baseline, selector := step.selector), Some(g)))
  }

  /** `process` for one frame at time `now`: a frame without a face
      returns before touching anything; otherwise the buffers slide, the
      snapshot is measured on them, and `Decide` runs. */
  function Process(e: Engine, frame: Frame, th: Thresholds, now: real, root: Root): (r: Result<Outcome, Error>)
    requires Lockstep(e.buffers)
    requires IsSquareRoot(root)
    ensures frame.NoFace? ==> r == Success(Outcome(e, None))
    ensures r.Success? ==> Lockstep(r.value.engine.buffers)
    ensures r.Success? && r.value.fired.Some? ==> r.value.engine.buffers == EmptyBuffers
    ensures frame.Face? && r.Success? && r.value.fired.None? ==>
      r.value.engine.buffers == Slide(e.buffers, frame.leftDot, frame.rightDot, frame.upRatios, frame.downRatios)
    // the selector judges the frame's snapshot against the baseline as it
    // was before the frame, and only then does the baseline absorb it
    ensures frame.Face? && r.Success? ==>
      r.value.engine.baseline == Baseline.AddObj(e.baseline, SnapshotOf(e.buffers, frame, th, root))
    ensures frame.Face? && r.Success? && r.value.fired.Some? ==>
      FirstAccepting(e.selector, r.value.fired.value, SnapshotOf(e.buffers, frame, th, root), e.baseline)
    ensures frame.Face? && r.Failure? ==>
      FirstAccepting(e.selector, r.error.gesture, SnapshotOf(e.buffers, frame, th, root), e.baseline)
  {
    match frame
    case NoFace => Success(Outcome(e, None))
    case Face(l, rd, u, d) =>
      Decide(e, Slide(e.buffers, l, rd, u, d), SnapshotOf(e.buffers, frame, th, root), now)
  }

  // ---------------------------------------------------------------------
  // The engine invariant

  /** What every reachable engine satisfies: the buffers are paired and no
      longer than `Capacity`, the selector invariant holds, every baseline
      is the median of its history, and the motion baselines have only seen
      non-negative deviations. */
  ghost predicate Valid(e: Engine) {
    && Lockstep(e.buffers)
    && |e.buffers.left| <= Capacity && |e.buffers.up| <= Capacity
    && EventSelector.Wellformed(e.selector)
    && Baseline.Valid(e.baseline)
    && (forall i :: 0 <= i < |e.baseline.stdX.history| ==> 0.0 <= e.baseline.stdX.history[i])
    && (forall i :: 0 <= i < |e.baseline.stdY.history| ==> 0.0 <= e.baseline.stdY.history[i])
  }

  lemma NewIsValid(callbacks: set<Gesture>, registrations: seq<Gesture>, now: real)
    ensures Valid(New(callbacks, registrations, now))
    ensures !New(callbacks, registrations, now).selector.latched
  {
    var b := Baseline.Initial;
    forall k
      ensures Baseline.Calibrated(Baseline.Get(b, k)) && |Baseline.Get(b, k).history| == |b.stdX.history|
    {
      assert Baseline.Get(b, k) == Baseline.Fresh;
    }
  }

  /** The ratio buffers are trimmed only after their deviations are
      taken: with a full window, the snapshot's up-ratio deviations are
      those of `Capacity + 1` samples (the stored window plus the new
      pair), while the window kept afterwards holds `Capacity`. */
  lemma RatioDeviationSeesOneExtraSample(b: Buffers, frame: Frame, th: Thresholds, root: Root)
    requires Lockstep(b) && frame.Face? && |b.up| == Capacity
    requires IsSquareRoot(root)
    ensures |Slide(b, frame.leftDot, frame.rightDot, frame.upRatios, frame.downRatios).up| == Capacity
    ensures |b.up + [frame.upRatios]| == Capacity + 1
    ensures var snap := SnapshotOf(b, frame, th, root);
      (snap.uStdR, snap.uStdL) == ComputeStd(b.up + [frame.upRatios], root)
  {
    var g := Grow(b, frame.leftDot, frame.rightDot, frame.upRatios, frame.downRatios);
    assert g.up == b.up + [frame.upRatios];
  }

  /** A fresh engine fires nothing during the first `DefaultRelaxation`
      seconds: the debounce window opened by the constructor is already
      running. */
  lemma QuietAfterConstruction(
    callbacks: set<Gesture>, registrations: seq<Gesture>, now: real,
    slid: Buffers, snap: Snapshot, later: real)
    requires Lockstep(slid)
    requires now <= later < now + EventSelector.DefaultRelaxation
    ensures var e := New(callbacks, registrations, now);
      var r := Decide(e, slid, snap, later);
      r.Success? && r.value.fired.None? && r.value.engine.selector == e.selector
  {
    var e := New(callbacks, registrations, now);
    assert EventSelector.Relaxing(e.selector, later);
  }

  /** On a valid latched engine outside the debounce window, a release of
      the latched entry (judged against the previous baseline) returns the
      selector to idle: no entry stays latched, nothing fires and the
      buffers are the slid window. */
  lemma ReleaseReturnsToIdle(e: Engine, slid: Buffers, snap: Snapshot, now: real, i: nat)
    requires Valid(e) && Lockstep(slid)
    requires !EventSelector.Relaxing(e.selector, now)
    requires i < |e.selector.registry| && e.selector.registry[i].latched
    requires Release(e.selector.registry[i].kind, snap, e.baseline)
    ensures var r := Decide(e, slid, snap, now);
      && r.Success? && r.value.fired.None?
      && r.value.engine.buffers == slid
      && !r.value.engine.selector.latched
      && forall j :: 0 <= j < |r.value.engine.selector.registry| ==> !r.value.engine.selector.registry[j].latched
  {
    var r := Decide(e, slid, snap, now);
    assert SomeReleaseAccepts(e.selector, snap, e.baseline);
    forall j | 0 <= j < |r.value.engine.selector.registry|
      ensures !r.value.engine.selector.registry[j].latched
    {
      if j != i {
        assert !e.selector.registry[j].latched;
      }
    }
  }

  /** `Decide` keeps the engine invariant, given buffers within capacity
      and a snapshot with non-negative motion deviations. */
  lemma DecideKeepsValid(e: Engine, slid: Buffers, snap: Snapshot, now: real)
    requires Valid(e)
    requires Lockstep(slid) && |slid.left| <= Capacity && |slid.up| <= Capacity
    requires 0.0 <= snap.stdX && 0.0 <= snap.stdY
    ensures var r := Decide(e, slid, snap, now);
      r.Success? ==> Valid(r.value.engine)
  {
    var r := Decide(e, slid, snap, now);
    if r.Success? {
      var detect := k => Detect(k, snap, e.baseline);
      var release := k => Release(k, snap, e.baseline);
      EventSelector.SelectKeepsWellformed(e.selector, now, detect, release);
      assert r.value.engine.selector == EventSelector.Select(e.selector, now, detect, release).selector;
      Baseline.AddObjKeepsValid(e.baseline, snap);
      var b' := r.value.engine.baseline;
      assert b'.stdX.history == Baseline.Get(b', StdX).history == e.baseline.stdX.history + [snap.stdX];
      assert b'.stdY.history == Baseline.Get(b', StdY).history == e.baseline.stdY.history + [snap.stdY];
    }
  }

  /** `process` keeps the engine invariant. */
  lemma ProcessKeepsValid(e: Engine, frame: Frame, th: Thresholds, now: real, root: Root)
    requires Valid(e)
    requires IsSquareRoot(root)
    ensures var r := Process(e, frame, th, now, root);
      r.Success? ==> Valid(r.value.engine)
  {
    if frame.Face? {
      var slid := Slide(e.buffers, frame.leftDot, frame.rightDot, frame.upRatios, frame.downRatios);
      DecideKeepsValid(e, slid, SnapshotOf(e.buffers, frame, th, root), now);
    }
  }

  /** On a valid engine no snapshot both fires and releases the same
      gesture: the hysteresis bands of all four gestures are disjoint once
      the vertical baseline is a median of non-negative deviations. */
  lemma NoChatter(e: Engine, s: Snapshot, g: Gesture)
    requires Valid(e)
    ensures !(Detect(g, s, e.baseline) && Release(g, s, e.baseline))
  {
    assert Baseline.Calibrated(Baseline.Get(e.baseline, StdY));
    Baseline.CalibratedNonNegative(e.baseline.stdY);
    DetectExcludesRelease(g, s, e.baseline);
  }

  /** After a detect fired at `now`, any snapshot that arrives before
      `now + relaxation` fires nothing and leaves the selector as it is:
      one gesture cannot trigger twice in a row. */
  lemma QuietAfterDetection(
    e: Engine, slid: Buffers, snap: Snapshot, now: real,
    slid': Buffers, snap': Snapshot, later: real)
    requires Lockstep(slid) && Lockstep(slid')
    requires Decide(e, slid, snap, now).Success?
    requires Decide(e, slid, snap, now).value.fired.Some?
    requires later - now < e.selector.relaxation
    ensures var e' := Decide(e, slid, snap, now).value.engine;
      var r := Decide(e', slid', snap', later);
      r.Success? && r.value.fired.None? && r.value.engine.selector == e'.selector
  {
    var e' := Decide(e, slid, snap, now).value.engine;
    assert EventSelector.Relaxing(e'.selector, later);
  }

  // ---------------------------------------------------------------------
  // Callback coverage

  /** Every registered detector has its own callback. */
  ghost predicate Covered(e: Engine) {
    forall i :: 0 <= i < |e.selector.registry| ==> e.selector.registry[i].kind in e.callbacks
  }

  /** A covered engine never fails, and stays covered. */
  lemma CoveredNeverFails(e: Engine, slid: Buffers, snap: Snapshot, now: real)
    requires Lockstep(slid) && Covered(e)
    ensures var r := Decide(e, slid, snap, now);
      r.Success? && Covered(r.value.engine)
  {
  }

  /** The same for a whole `process` call. */
  lemma CoveredProcessNeverFails(e: Engine, frame: Frame, th: Thresholds, now: real, root: Root)
    requires Lockstep(e.buffers) && Covered(e)
    requires IsSquareRoot(root)
    ensures var r := Process(e, frame, th, now, root);
      r.Success? && Covered(r.value.engine)
  {
    if frame.Face? {
      var slid := Slide(e.buffers, frame.leftDot, frame.rightDot, frame.upRatios, frame.downRatios);
      CoveredNeverFails(e, slid, SnapshotOf(e.buffers, frame, th, root), now);
    }
  }

  /** The registrations the detectors' own callbacks call for: each
      supplied callback registers the detector that invokes it, in the
      order of the constructor's parameters. */
  function OwnRegistration(callbacks: set<Gesture>): (r: seq<Gesture>)
    ensures forall g :: g in r <==> g in callbacks
    ensures forall i, j :: 0 <= i < j < |r| ==> ParameterIndex(r[i]) < ParameterIndex(r[j])
    ensures forall i, j :: 0 <= i < j < |r| ==> r[i] != r[j]
  {
    var r := (if Left in callbacks then [Left] else [])
      + (if Right in callbacks then [Right] else [])
      + (if Blink in callbacks then [Blink] else [])
      + (if Up in callbacks then [Up] else []);
    EveryGestureHasASlot(callbacks, r);
    r
  }

  /** A freshly built engine is covered exactly when every registration
      names a supplied callback. */
  lemma NewCovered(callbacks: set<Gesture>, registrations: seq<Gesture>, now: real)
    ensures Covered(New(callbacks, registrations, now)) <==> forall g :: g in registrations ==> g in callbacks
  {
    var reg := New(callbacks, registrations, now).selector.registry;
    assert |reg| == |registrations|;
    assert forall i :: 0 <= i < |reg| ==> reg[i].kind == registrations[i];
  }

  /** A sequence with one slot per gesture, filled when the gesture is in
      `c`, holds exactly the gestures of `c`. */
  lemma EveryGestureHasASlot(c: set<Gesture>, r: seq<Gesture>)
    requires r == (if Left in c then [Left] else []) + (if Right in c then [Right] else [])
      + (if Blink in c then [Blink] else []) + (if Up in c then [Up] else [])
    ensures forall g :: g in r <==> g in c
  {
    forall g
      ensures g in r <==> g in c
    {
      match g
      case Left =>
      case Right =>
      case Blink =>
      case Up =>
    }
  }

  /** With every supplied callback registering its own detector, the
      engine starts covered and so (by `CoveredNeverFails`) never fails,
      whatever subset of callbacks is supplied. */
  lemma OwnRegistrationIsCovered(callbacks: set<Gesture>, now: real)
    ensures Covered(New(callbacks, OwnRegistration(callbacks), now))
  {
    NewCovered(callbacks, OwnRegistration(callbacks), now);
  }

  /** The crossed registration of `EyeSelect.__init__` is covered exactly
      when the supplied callbacks are closed under swapping left with
      right and blink with up (for instance all four, or none). */
  lemma CrossedRegistrationCovered(callbacks: set<Gesture>, now: real)
    ensures Covered(New(callbacks, CrossedRegistration(callbacks), now))
        <==> forall g :: g in callbacks ==> Crossed(g) in callbacks
  {
    NewCovered(callbacks, CrossedRegistration(callbacks), now);
    CrossedRegistrationNamesSupplied(callbacks);
  }

  lemma CrossedRegistrationNamesSupplied(callbacks: set<Gesture>)
    ensures (forall g :: g in CrossedRegistration(callbacks) ==> g in callbacks)
        <==> forall g :: g in callbacks ==> Crossed(g) in callbacks
  {
    var regs := CrossedRegistration(callbacks);
    if forall g :: g in callbacks ==> Crossed(g) in callbacks {
      forall g | g in regs
        ensures g in callbacks
      {
        assert Crossed(Crossed(g)) == g;
      }
    }
    if forall g :: g in regs ==> g in callbacks {
      forall g | g in callbacks
        ensures Crossed(g) in callbacks
      {
        assert Crossed(Crossed(g)) == g;
        assert Crossed(g) in regs;
      }
    }
  }

  /** With only `left_cb` supplied, `__init__` registers the right
      detector alone; the first time it fires it calls the missing
      `right_cb` and `process` fails. */
  lemma CrossedRegistrationMisfires(e: Engine, slid: Buffers, snap: Snapshot, now: real)
    requires e.callbacks == {Left}
    requires e.selector.registry == [EventSelector.Entry(Right, false)]
    requires !e.selector.latched && !EventSelector.Relaxing(e.selector, now)
    requires Lockstep(slid)
    requires Detect(Right, snap, e.baseline)
    ensures CrossedRegistration({Left}) == [Right]
    ensures Decide(e, slid, snap, now) == Failure(MissingCallback(Right))
  {
    assert e.selector.registry[0].kind == Right;
    assert forall g :: Registered(e.selector, g) ==> g == Right;
  }

  const AllCallbacks: set<Gesture> := {Left, Right, Blink, Up}

  /** With all four callbacks the constructor registers right, left, up,
      blink in that order, so a snapshot that the right detector accepts
      fires right, whatever the other detectors say. */
  lemma CrossedRegistrationPrefersRight(e: Engine, slid: Buffers, snap: Snapshot, now: real)
    requires e.callbacks == AllCallbacks
    requires |e.selector.registry| == |CrossedRegistration(AllCallbacks)|
    requires forall i :: 0 <= i < |e.selector.registry| ==>
      e.selector.registry[i].kind == CrossedRegistration(AllCallbacks)[i]
    requires !e.selector.latched && !EventSelector.Relaxing(e.selector, now)
    requires Lockstep(slid)
    requires Detect(Right, snap, e.baseline)
    ensures CrossedRegistration(AllCallbacks) == [Right, Left, Up, Blink]
    ensures Decide(e, slid, snap, now).Success? && Decide(e, slid, snap, now).value.fired == Some(Right)
  {
    var regs := CrossedRegistration(AllCallbacks);
    assert regs == [Right, Left, Up, Blink];
    var r := Decide(e, slid, snap, now);
    assert e.selector.registry[0].kind == Right;
    var g := r.value.fired.value;
    var i :| 0 <= i < |e.selector.registry| && e.selector.registry[i].kind == g && Detect(g, snap, e.baseline)
      && forall j :: 0 <= j < i ==> !Detect(e.selector.registry[j].kind, snap, e.baseline);
    assert i == 0;
  }
}

=== FILE: features.dfy ===
/** The per-frame feature record (`EyeIntermediateObject`) handed to the
    baseline tracker and the event selector. */
module Features {

  /** The per-call gesture thresholds of `process`. */
  datatype Thresholds = Thresholds(left: real, right: real, up: real, blink: real)

  /** The defaults of `process(image, left_th=-100, right_th=100, up_th=1.5, blink_th=100)`. */
  const DefaultThresholds: Thresholds := Thresholds(-100.0, 100.0, 1.5, 100.0)

  /** One frame's derived gaze features. The pupil and upper-corner anchors
      the source also copies into the record are read by no predicate and
      are not kept here. */
  datatype Snapshot = Snapshot(
    x: real,
    y: real,
    stdX: real,
    stdY: real,
    xyStd: real,
    dStdR: real,
    dStdL: real,
    uStdR: real,
    uStdL: real,
    th: Thresholds,
    maxRadius: real,
    maxDistX: real,
    maxDistY: real)

  /** The nine statistics the baseline tracker follows. */
  datatype Statistic = StdX | StdY | XyStd | DStdR | DStdL | UStdR | UStdL | MaxDistX | MaxDistY

  function Read(s: Snapshot, k: Statistic): real {
    match k
    case StdX => s.stdX
    case StdY => s.stdY
    case XyStd => s.xyStd
    case DStdR => s.dStdR
    case DStdL => s.dStdL
    case UStdR => s.uStdR
    case UStdL => s.uStdL
    case MaxDistX => s.maxDistX
    case MaxDistY => s.maxDistY
  }
}

=== FILE: gestures.dfy ===
/** The four detect/release predicate pairs of `EyeSelect`: comparisons of
    a snapshot against the baseline with hysteresis bands. */
module Gestures {
  import opened Features
  import opened Baseline

  datatype Gesture = Left | Right | Up | Blink

  /** The gap between a horizontal detect threshold and its release threshold. */
  const ReleaseMargin: real := 40.0

  /** `__left`, `__right`, `__up`, `__blink`: true when the detector fires. */
  predicate Detect(g: Gesture, s: Snapshot, b: Tracker): (r: bool)
    // a firing snapshot is never also a releasing one (the vertical bands
    // need a non-negative baseline)
    ensures r && (g == Up || g == Blink ==> 0.0 <= b.stdY.value) ==> !Release(g, s, b)
  {
    match g
    case Left => s.stdX > b.stdX.value && s.x < s.th.left
    case Right => s.stdX > b.stdX.value && s.x > s.th.right
    case Up =>
      && s.maxDistX < b.maxDistX.value * 1.25
      && s.maxDistY > b.maxDistY.value * 1.5
      && s.stdY > b.stdY.value * 1.5
    case Blink =>
      && s.maxRadius > s.th.blink
      && s.stdX > b.stdX.value * 1.5
      && s.stdY > b.stdY.value * 1.5
  }

  /** `__left_unlatch` and its siblings: true when they return `False`
      (unlatch), false when they return `None` (no decision). */
  predicate Release(g: Gesture, s: Snapshot, b: Tracker): (r: bool)
    // a release lies on the far side of the detect threshold: the gaze is
    // back past the horizontal threshold, the vertical motion back below
    // the detect band
    ensures r && g == Left ==> s.x > s.th.left && s.stdX < b.stdX.value
    ensures r && g == Right ==> s.x < s.th.right && s.stdX < b.stdX.value
    ensures r && (g == Up || g == Blink) && 0.0 <= b.stdY.value ==> s.stdY <= b.stdY.value * 1.5
  {
    match g
    case Left => s.stdX < b.stdX.value && s.x > s.th.left + ReleaseMargin
    case Right => s.stdX < b.stdX.value && s.x < s.th.right - ReleaseMargin
    case Up => s.stdY < b.stdY.value * 1.25
    case Blink => s.stdY < b.stdY.value * 1.25
  }

  /** The hysteresis bands are disjoint: no snapshot both fires a gesture
      and releases it, provided the vertical baseline is non-negative (the
      horizontal gestures need no such proviso). */
  lemma DetectExcludesRelease(g: Gesture, s: Snapshot, b: Tracker)
    requires g == Up || g == Blink ==> 0.0 <= b.stdY.value
    ensures !(Detect(g, s, b) && Release(g, s, b))
  {
  }

  /** With the default thresholds of `process` the horizontal gestures
      fire beyond 100 pixels from the centre and release only back inside
      60, so a gaze between 60 and 100 pixels out neither fires nor
      releases. */
  lemma DefaultHorizontalBands(s: Snapshot, b: Tracker)
    requires s.th == DefaultThresholds
    ensures Detect(Left, s, b) ==> s.x < -100.0
    ensures Release(Left, s, b) ==> s.x > -60.0
    ensures Detect(Right, s, b) ==> s.x > 100.0
    ensures Release(Right, s, b) ==> s.x < 60.0
    ensures -100.0 <= s.x <= -60.0 ==> !Detect(Left, s, b) && !Release(Left, s, b)
    ensures 60.0 <= s.x <= 100.0 ==> !Detect(Right, s, b) && !Release(Right, s, b)
  {
  }

  /** The proviso is needed: with a negative vertical baseline the 1.5x
      detect band lies below the 1.25x release band and they overlap. */
  lemma NegativeBaselineOverlapsUpBands(s: Snapshot, b: Tracker)
    requires b.stdY.value == -1.0 && s.stdY == -1.4
    requires s.maxDistX < b.maxDistX.value * 1.25 && s.maxDistY > b.maxDistY.value * 1.5
    ensures Detect(Up, s, b) && Release(Up, s, b)
  {
  }
}

=== FILE: median.dfy ===
/** The median `np.median` computes over a history of reals: sort, then take
    the middle value, or the mean of the two middle values when the count is
    even. */
module Medians {

  ghost predicate Sorted(s: seq<real>) {
    forall i, j :: 0 <= i < j < |s| ==> s[i] <= s[j]
  }

  /** Inserts `x` before the first element it does not exceed. */
  function Insert(x: real, s: seq<real>): (r: seq<real>)
    ensures |r| == |s| + 1
  {
    if |s| == 0 then [x]
    else if x <= s[0] then [x] + s
    else [s[0]] + Insert(x, s[1..])
  }

  /** Insertion sort. */
  function Sort(xs: seq<real>): (r: seq<real>)
    ensures |r| == |xs|
  {
    if |xs| == 0 then [] else Insert(xs[|xs| - 1], Sort(xs[..|xs| - 1]))
  }

  lemma SortedTail(s: seq<real>)
    requires Sorted(s) && |s| > 0
    ensures Sorted(s[1..])
  {
  }

  /** The head of a sorted sequence is at most each of its values. */
  lemma SortedHeadIsLeast(s: seq<real>, v: real)
    requires Sorted(s) && v in multiset(s)
    ensures |s| > 0 && s[0] <= v
  {
    assert v in s;
    var i :| 0 <= i < |s| && s[i] == v;
  }

  lemma {:induction false} InsertPermutation(x: real, s: seq<real>)
    ensures multiset(Insert(x, s)) == multiset(s) + multiset{x}
  {
    if |s| > 0 && x > s[0] {
      InsertPermutation(x, s[1..]);
      assert s == [s[0]] + s[1..];
    }
  }

  /** A bound below `x` and every element of `s` bounds `Insert(x, s)`. */
  lemma {:induction false} InsertLowerBound(x: real, s: seq<real>, lo: real)
    requires lo <= x
    requires forall k :: 0 <= k < |s| ==> lo <= s[k]
    ensures forall k :: 0 <= k < |Insert(x, s)| ==> lo <= Insert(x, s)[k]
  {
    if |s| > 0 && x > s[0] {
      InsertLowerBound(x, s[1..], lo);
    }
  }

  /** Inserting into a sorted sequence keeps it sorted and adds exactly `x`. */
  lemma {:induction false} InsertSortedPermutation(x: real, s: seq<real>)
    requires Sorted(s)
    ensures Sorted(Insert(x, s))
    ensures multiset(Insert(x, s)) == multiset(s) + multiset{x}
  {
    InsertPermutation(x, s);
    if |s| > 0 && x > s[0] {
      var tail := Insert(x, s[1..]);
      SortedTail(s);
      InsertSortedPermutation(x, s[1..]);
      InsertLowerBound(x, s[1..], s[0]);
      var r := [s[0]] + tail;
      assert Insert(x, s) == r;
      forall i, j | 0 <= i < j < |r|
        ensures r[i] <= r[j]
      {
        if i > 0 {
          assert r[i] == tail[i - 1] && r[j] == tail[j - 1];
        } else {
          assert r[j] == tail[j - 1];
        }
      }
    }
  }

  /** `Sort` returns a sorted permutation of its input. */
  lemma {:induction false} SortSortedPermutation(xs: seq<real>)
    ensures Sorted(Sort(xs))
    ensures multiset(Sort(xs)) == multiset(xs)
  {
    if |xs| > 0 {
      var n := |xs| - 1;
      var init := Sort(xs[..n]);
      assert Sort(xs) == Insert(xs[n], init);
      SortSortedPermutation(xs[..n]);
      InsertSortedPermutation(xs[n], init);
      assert xs == xs[..n] + [xs[n]];
      assert multiset(xs) == multiset(xs[..n]) + multiset{xs[n]};
    }
  }

  /** `np.median` of a non-empty history. */
  function Median(h: seq<real>): (m: real)
    requires |h| > 0
    // an odd history's median is one of its values
    ensures |h| % 2 == 1 ==> m in h
  {
    var s := Sort(h);
    var n := |s|;
    SortSortedPermutation(h);
    assert s[n / 2] in multiset(h);
    if n % 2 == 1 then s[n / 2] else (s[n / 2 - 1] + s[n / 2]) / 2.0
  }

  // ---------------------------------------------------------------------
  // Counting

  /** How many elements of `s` satisfy `p`. */
  function Count(s: seq<real>, p: real -> bool): nat {
    if |s| == 0 then 0 else (if p(s[0]) then 1 else 0) + Count(s[1..], p)
  }

  function CountAtMost(s: seq<real>, m: real): nat {
    Count(s, v => v <= m)
  }

  function CountAtLeast(s: seq<real>, m: real): nat {
    Count(s, v => m <= v)
  }

  lemma {:induction false} CountConcat(a: seq<real>, b: seq<real>, p: real -> bool)
    ensures Count(a + b, p) == Count(a, p) + Count(b, p)
  {
    if |a| == 0 {
      assert a + b == b;
    } else {
      assert (a + b)[1..] == a[1..] + b;
      CountConcat(a[1..], b, p);
    }
  }

  lemma {:induction false} CountInsert(x: real, s: seq<real>, p: real -> bool)
    ensures Count(Insert(x, s), p) == Count(s, p) + (if p(x) then 1 else 0)
  {
    if |s| > 0 && x > s[0] {
      CountInsert(x, s[1..], p);
    }
  }

  lemma {:induction false} CountSort(xs: seq<real>, p: real -> bool)
    ensures Count(Sort(xs), p) == Count(xs, p)
  {
    if |xs| > 0 {
      var n := |xs| - 1;
      var init := Sort(xs[..n]);
      assert Sort(xs) == Insert(xs[n], init);
      CountSort(xs[..n], p);
      CountInsert(xs[n], init, p);
      assert xs == xs[..n] + [xs[n]];
      CountConcat(xs[..n], [xs[n]], p);
      assert Count([xs[n]], p) == if p(xs[n]) then 1 else 0;
    }
  }

  /** Every element in positions `lo..hi` satisfies `p`, so at least
      `hi - lo` elements do. */
  lemma {:induction false} CountRange(s: seq<real>, p: real -> bool, lo: nat, hi: nat)
    requires lo <= hi <= |s|
    requires forall i :: lo <= i < hi ==> p(s[i])
    ensures Count(s, p) >= hi - lo
  {
    if lo < hi {
      if lo == 0 {
        CountRange(s[1..], p, 0, hi - 1);
      } else {
        CountRange(s[1..], p, lo - 1, hi - 1);
      }
    }
  }

  lemma {:induction false} CountPositive(s: seq<real>, p: real -> bool)
    requires Count(s, p) > 0
    ensures exists i :: 0 <= i < |s| && p(s[i])
  {
    if !p(s[0]) {
      CountPositive(s[1..], p);
      var i :| 0 <= i < |s[1..]| && p(s[1..][i]);
      assert p(s[i + 1]);
    }
  }

  // ---------------------------------------------------------------------
  // What the median is

  /** In a sorted sequence the middle element (or the mean of the two
      middle elements) has at least half of the values on either side. */
  lemma SortedMiddleSplits(s: seq<real>, m: real)
    requires Sorted(s) && |s| > 0
    requires m == if |s| % 2 == 1 then s[|s| / 2] else (s[|s| / 2 - 1] + s[|s| / 2]) / 2.0
    ensures CountAtMost(s, m) >= (|s| + 1) / 2
    ensures CountAtLeast(s, m) >= (|s| + 1) / 2
  {
    var n := |s|;
    if n % 2 == 1 {
      CountRange(s, v => v <= m, 0, n / 2 + 1);
    } else {
      CountRange(s, v => v <= m, 0, n / 2);
    }
    CountRange(s, v => m <= v, n / 2, n);
  }

  /** The median splits the history in half: at least half of the values
      (rounded up) are at most the median and at least half are at least
      the median. It therefore lies between the smallest and the largest
      observed value. */
  lemma MedianSplitsHistory(h: seq<real>)
    requires |h| > 0
    ensures CountAtMost(h, Median(h)) >= (|h| + 1) / 2
    ensures CountAtLeast(h, Median(h)) >= (|h| + 1) / 2
    ensures exists i :: 0 <= i < |h| && h[i] <= Median(h)
    ensures exists j :: 0 <= j < |h| && Median(h) <= h[j]
  {
    var m := Median(h);
    SortSortedPermutation(h);
    SortedMiddleSplits(Sort(h), m);
    CountSort(h, v => v <= m);
    CountSort(h, v => m <= v);
    CountPositive(h, v => v <= m);
    CountPositive(h, v => m <= v);
  }

  /** Two sorted sequences holding the same values are equal. */
  lemma {:induction false} SortedUnique(a: seq<real>, b: seq<real>)
    requires Sorted(a) && Sorted(b)
    requires multiset(a) == multiset(b)
    ensures a == b
  {
    if |a| == 0 {
      assert |multiset(b)| == 0;
    } else {
      assert a[0] in multiset(a);
      SortedHeadIsLeast(b, a[0]);
      assert b[0] in multiset(b);
      SortedHeadIsLeast(a, b[0]);
      assert a[0] == b[0];
      assert a == [a[0]] + a[1..];
      assert b == [b[0]] + b[1..];
      assert multiset(a) == multiset{a[0]} + multiset(a[1..]);
      assert multiset(b) == multiset{a[0]} + multiset(b[1..]);
      assert multiset(a[1..]) == multiset(a) - multiset{a[0]};
      assert multiset(b[1..]) == multiset(b) - multiset{a[0]};
      SortedTail(a);
      SortedTail(b);
      SortedUnique(a[1..], b[1..]);
    }
  }

  /** The median depends only on which values were observed, not on the
      order in which they arrived. */
  lemma MedianIgnoresOrder(a: seq<real>, b: seq<real>)
    requires |a| > 0
    requires multiset(a) == multiset(b)
    ensures |b| > 0 && Median(a) == Median(b)
  {
    var sa, sb := Sort(a), Sort(b);
    assert |b| == |multiset(b)|;
    SortSortedPermutation(a);
    SortSortedPermutation(b);
    SortedUnique(sa, sb);
  }

  /** Whatever sorted arrangement of the history one takes, the median is
      its middle value for an odd count and the mean of its two middle
      values for an even count. */
  lemma MedianOfSortedArrangement(h: seq<real>, s: seq<real>)
    requires |h| > 0 && Sorted(s) && multiset(s) == multiset(h)
    ensures |s| == |h|
    ensures Median(h) == if |h| % 2 == 1 then s[|h| / 2] else (s[|h| / 2 - 1] + s[|h| / 2]) / 2.0
  {
    assert |s| == |multiset(s)| == |multiset(h)| == |h|;
    SortSortedPermutation(h);
    SortedUnique(Sort(h), s);
  }

  /** Two observations give their mean, not either of them. */
  lemma MedianOfTwo(a: real, b: real)
    requires a < b
    ensures Median([b, a]) == (a + b) / 2.0
    ensures a < Median([b, a]) < b
  {
    MedianOfSortedArrangement([b, a], [a, b]);
  }
}

=== FILE: selector.dfy ===
/** `EventSelector`: a registry of (detect, release) predicate pairs with a
    latched flag each, an aggregate latched flag and a global debounce
    window. Time is passed in as `now`; predicates are passed in as pure
    functions of the registered kind, and a detect's side effect (callback,
    buffer reset) is reported to the caller as the index that fired. */
module EventSelector {
  import opened Wrappers

  /** The `relaxation` default of `EventSelector.__init__`, in seconds. */
  const DefaultRelaxation: real := 0.5

  datatype Entry<K> = Entry(kind: K, latched: bool)

  datatype Selector<K> = Selector(
    registry: seq<Entry<K>>,
    latched: bool,
    debounceStart: real,
    relaxation: real)

  /** The selector after one `select` call, and the registry index whose
      detect fired during it, if any. */
  datatype Step<K> = Step(selector: Selector<K>, fired: Option<nat>)

  predicate AnyLatched<K>(registry: seq<Entry<K>>) {
    exists i :: 0 <= i < |registry| && registry[i].latched
  }

  ghost predicate AtMostOneLatched<K>(registry: seq<Entry<K>>) {
    forall i, j ::
      0 <= i < |registry| && 0 <= j < |registry| && registry[i].latched && registry[j].latched ==> i == j
  }

  /** The selector invariant: at most one entry is latched, and the
      aggregate flag says whether one is. */
  ghost predicate Wellformed<K>(s: Selector<K>) {
    AtMostOneLatched(s.registry) && (s.latched <==> AnyLatched(s.registry))
  }

  /** `EventSelector.__init__` at time `now`: nothing registered, nothing
      latched, the debounce window opened at construction. */
  function Create<K>(now: real, relaxation: real): (s: Selector<K>)
    ensures Wellformed(s)
    ensures s.registry == [] && !s.latched
    ensures s.debounceStart == now && s.relaxation == relaxation
    ensures forall t :: now <= t < now + relaxation ==> Relaxing(s, t)
  {
    Selector([], false, now, relaxation)
  }

  /** `register`: appends an unlatched entry; registration order is the
      order in which detects are tried. */
  function Register<K>(s: Selector<K>, kind: K): (r: Selector<K>)
    ensures r.registry == s.registry + [Entry(kind, false)]
    ensures r.latched == s.latched && r.debounceStart == s.debounceStart
    ensures Wellformed(s) ==> Wellformed(r)
  {
    var r := s.(registry := s.registry + [Entry(kind, false)]);
    assert forall i :: 0 <= i < |s.registry| ==> r.registry[i] == s.registry[i];
    r
  }

  /** True while `select` is a no-op: `relaxation > now - debouncing_start`. */
  predicate Relaxing<K>(s: Selector<K>, now: real) {
    s.relaxation > now - s.debounceStart
  }

  /** The first index at or after `from` whose detect fires. */
  function FirstDetected<K>(registry: seq<Entry<K>>, detect: K -> bool, from: nat): (r: Option<nat>)
    requires from <= |registry|
    decreases |registry| - from
    ensures r.Some? ==>
      && from <= r.value < |registry|
      && detect(registry[r.value].kind)
      && forall j :: from <= j < r.value ==> !detect(registry[j].kind)
    ensures r.None? ==> forall j :: from <= j < |registry| ==> !detect(registry[j].kind)
  {
    if from == |registry| then None
    else if detect(registry[from].kind) then Some(from)
    else FirstDetected(registry, detect, from + 1)
  }

  /** The registry after every latched entry's release has been asked. */
  function Released<K>(registry: seq<Entry<K>>, release: K -> bool): seq<Entry<K>> {
    seq(|registry|, i requires 0 <= i < |registry| =>
      registry[i].(latched := registry[i].latched && !release(registry[i].kind)))
  }

  predicate AnyReleased<K>(registry: seq<Entry<K>>, release: K -> bool) {
    exists i :: 0 <= i < |registry| && registry[i].latched && release(registry[i].kind)
  }

  /** `select`. Inside the debounce window nothing happens. Otherwise, when
      latched, only the latched entries' releases are asked and a release
      clears its entry and the aggregate flag; when idle, detects are tried
      in registration order and the first that fires latches its entry and
      restarts the debounce window. */
  function Select<K>(s: Selector<K>, now: real, detect: K -> bool, release: K -> bool): (r: Step<K>)
    ensures Relaxing(s, now) ==> r == Step(s, None)
    ensures r.selector.relaxation == s.relaxation
    ensures |r.selector.registry| == |s.registry|
    ensures forall i :: 0 <= i < |s.registry| ==> r.selector.registry[i].kind == s.registry[i].kind
    // idle: first match wins
    ensures r.fired.Some? ==>
      && !Relaxing(s, now) && !s.latched
      && r.fired.value < |s.registry|
      && detect(s.registry[r.fired.value].kind)
      && (forall j :: 0 <= j < r.fired.value ==> !detect(s.registry[j].kind))
      && r.selector == s.(
           registry := s.registry[r.fired.value := Entry(s.registry[r.fired.value].kind, true)],
           latched := true,
           debounceStart := now)
    ensures !Relaxing(s, now) && !s.latched && r.fired.None? ==>
      && r.selector == s
      && forall j :: 0 <= j < |s.registry| ==> !detect(s.registry[j].kind)
    // latched: no detect, only releases of latched entries
    ensures !Relaxing(s, now) && s.latched ==>
      && r.fired.None?
      && r.selector.debounceStart == s.debounceStart
      && (forall i :: 0 <= i < |s.registry| ==>
            r.selector.registry[i].latched == (s.registry[i].latched && !release(s.registry[i].kind)))
      && (r.selector.latched <==> !AnyReleased(s.registry, release))
  {
    if Relaxing(s, now) then Step(s, None)
    else if s.latched then
      var any := AnyReleased(s.registry, release);
      Step(s.(registry := Released(s.registry, release), latched := !any), None)
    else
      match FirstDetected(s.registry, detect, 0)
      case None => Step(s, None)
      case Some(i) =>
        Step(s.(registry := s.registry[i := Entry(s.registry[i].kind, true)],
                latched := true,
                debounceStart := now),
             Some(i))
  }

  /** `select` keeps the selector invariant. */
  lemma SelectKeepsWellformed<K>(s: Selector<K>, now: real, detect: K -> bool, release: K -> bool)
    requires Wellformed(s)
    ensures Wellformed(Select(s, now, detect, release).selector)
  {
    var r := Select(s, now, detect, release);
    var reg, reg' := s.registry, r.selector.registry;
    if !Relaxing(s, now) {
      if s.latched {
        var i :| 0 <= i < |reg| && reg[i].latched;
        if AnyReleased(reg, release) {
          var j :| 0 <= j < |reg| && reg[j].latched && release(reg[j].kind);
          assert i == j;
          assert !AnyLatched(reg');
        } else {
          assert reg'[i].latched;
        }
      } else if r.fired.Some? {
        var i := r.fired.value;
        assert reg'[i].latched;
        assert forall j :: 0 <= j < |reg| && j != i ==> !reg'[j].latched;
      }
    }
  }

  /** Once a detect fires at `now`, every `select` before `now + relaxation`
      is a no-op: no further detect and no further callback. */
  lemma QuietAfterFiring<K>(
    s: Selector<K>, now: real, detect: K -> bool, release: K -> bool,
    later: real, detect': K -> bool, release': K -> bool)
    requires Select(s, now, detect, release).fired.Some?
    requires later - now < s.relaxation
    ensures Select(Select(s, now, detect, release).selector, later, detect', release')
      == Step(Select(s, now, detect, release).selector, None)
  {
  }

  /** The debounce timestamp moves only when a detect fires, and then to `now`. */
  lemma DebounceRestartsOnlyOnDetect<K>(s: Selector<K>, now: real, detect: K -> bool, release: K -> bool)
    ensures var r := Select(s, now, detect, release);
      r.selector.debounceStart == (if r.fired.Some? then now else s.debounceStart)
  {
  }
}

=== FILE: statistics.dfy ===
/** Sliding-window statistics of `EyeSelect/eyeselect.py`: the population
    standard deviation of `compute_std`, the axis extents of the buffered
    points and the largest pairwise distance between them.

    Square roots are not computable over `real`, so every operation that
    takes one receives it as a parameter `root` that is required to be the
    non-negative square root on non-negative arguments. */
module Statistics {

  /** A canvas position after truncation to integers. */
  datatype Point = Point(x: int, y: int)

  /** One buffered pair of reals; `compute_std` works column by column. */
  type Sample = (real, real)

  type Root = real -> real

  /** `root` is the non-negative square root on the non-negative reals. */
  ghost predicate IsSquareRoot(root: Root) {
    && root(0.0) == 0.0
    && forall v: real :: 0.0 < v ==> 0.0 < root(v) && root(v) * root(v) == v
  }

  lemma RootMonotonic(root: Root, a: real, b: real)
    requires IsSquareRoot(root)
    requires 0.0 <= a <= b
    ensures root(a) <= root(b)
  {
  }

  // ---------------------------------------------------------------------
  // Population variance

  function Sum(xs: seq<real>): real {
    if |xs| == 0 then 0.0 else xs[0] + Sum(xs[1..])
  }

  function Mean(xs: seq<real>): real
    requires |xs| > 0
  {
    Sum(xs) / (|xs| as real)
  }

  /** Sum of squared deviations of `xs` from `mu`. */
  function SquaredDeviation(xs: seq<real>, mu: real): (r: real)
    ensures 0.0 <= r
  {
    if |xs| == 0 then 0.0
    else
      var d := xs[0] - mu;
      SquaredDeviation(xs[1..], mu) + d * d
  }

  /** The population variance (divisor n, as `np.std` uses by default). */
  function Variance(xs: seq<real>): (r: real)
    requires |xs| > 0
    ensures 0.0 <= r
  {
    SquaredDeviation(xs, Mean(xs)) / (|xs| as real)
  }

  lemma {:induction false} SumOfConstant(xs: seq<real>, c: real)
    requires forall i :: 0 <= i < |xs| ==> xs[i] == c
    ensures Sum(xs) == (|xs| as real) * c
  {
    if |xs| > 0 {
      SumOfConstant(xs[1..], c);
    }
  }

  lemma {:induction false} SquaredDeviationOfConstant(xs: seq<real>, c: real)
    requires forall i :: 0 <= i < |xs| ==> xs[i] == c
    ensures SquaredDeviation(xs, c) == 0.0
  {
    if |xs| > 0 {
      SquaredDeviationOfConstant(xs[1..], c);
    }
  }

  /** A window that holds one value only has zero variance: a held gaze
      shows no motion at all. */
  lemma {:induction false} VarianceOfConstant(xs: seq<real>)
    requires |xs| > 0
    requires forall i :: 0 <= i < |xs| ==> xs[i] == xs[0]
    ensures Variance(xs) == 0.0
  {
    SumOfConstant(xs, xs[0]);
    assert Mean(xs) == xs[0];
    SquaredDeviationOfConstant(xs, xs[0]);
  }

  // ---------------------------------------------------------------------
  // compute_std

  function Column0(buffer: seq<Sample>): (c: seq<real>)
    ensures |c| == |buffer|
    ensures forall i :: 0 <= i < |buffer| ==> c[i] == buffer[i].0
  {
    seq(|buffer|, i requires 0 <= i < |buffer| => buffer[i].0)
  }

  function Column1(buffer: seq<Sample>): (c: seq<real>)
    ensures |c| == |buffer|
    ensures forall i :: 0 <= i < |buffer| ==> c[i] == buffer[i].1
  {
    seq(|buffer|, i requires 0 <= i < |buffer| => buffer[i].1)
  }

  /** `compute_std`: (0, 0) for fewer than two samples, otherwise the
      per-column population standard deviation. */
  function ComputeStd(buffer: seq<Sample>, root: Root): (r: (real, real))
    requires IsSquareRoot(root)
    ensures |buffer| < 2 ==> r == (0.0, 0.0)
    ensures 0.0 <= r.0 && 0.0 <= r.1
    ensures |buffer| >= 2 ==>
      && r.0 * r.0 == Variance(Column0(buffer))
      && r.1 * r.1 == Variance(Column1(buffer))
  {
    if |buffer| < 2 then (0.0, 0.0)
    else (root(Variance(Column0(buffer))), root(Variance(Column1(buffer))))
  }

  /** A window whose first column never moved has zero deviation on it. */
  lemma StillColumnHasZeroStd(buffer: seq<Sample>, root: Root)
    requires IsSquareRoot(root)
    requires forall i :: 0 <= i < |buffer| ==> buffer[i].0 == buffer[0].0
    ensures ComputeStd(buffer, root).0 == 0.0
  {
    if |buffer| >= 2 {
      VarianceOfConstant(Column0(buffer));
    }
  }

  /** Integer canvas points seen as pairs of reals. */
  function AsSamples(ps: seq<Point>): (r: seq<Sample>)
    ensures |r| == |ps|
    ensures forall i :: 0 <= i < |ps| ==> r[i] == (ps[i].x as real, ps[i].y as real)
  {
    seq(|ps|, i requires 0 <= i < |ps| => (ps[i].x as real, ps[i].y as real))
  }

  // ---------------------------------------------------------------------
  // Axis extents

  function MinOf(xs: seq<int>): (m: int)
    requires |xs| > 0
    ensures exists i :: 0 <= i < |xs| && xs[i] == m
    ensures forall i :: 0 <= i < |xs| ==> m <= xs[i]
  {
    if |xs| == 1 then xs[0]
    else
      var rest := MinOf(xs[1..]);
      assert forall i :: 1 <= i < |xs| ==> xs[i] == xs[1..][i - 1];
      if xs[0] <= rest then xs[0] else rest
  }

  function MaxOf(xs: seq<int>): (m: int)
    requires |xs| > 0
    ensures exists i :: 0 <= i < |xs| && xs[i] == m
    ensures forall i :: 0 <= i < |xs| ==> xs[i] <= m
  {
    if |xs| == 1 then xs[0]
    else
      var rest := MaxOf(xs[1..]);
      assert forall i :: 1 <= i < |xs| ==> xs[i] == xs[1..][i - 1];
      if rest <= xs[0] then xs[0] else rest
  }

  /** `max() - min()` of one coordinate: the largest difference between two
      of the values, attained by some pair. */
  function Extent(xs: seq<int>): (r: int)
    requires |xs| > 0
    ensures 0 <= r
    ensures forall i, j :: 0 <= i < |xs| && 0 <= j < |xs| ==> xs[i] - xs[j] <= r
    ensures exists i, j :: 0 <= i < |xs| && 0 <= j < |xs| && xs[i] - xs[j] == r
  {
    MaxOf(xs) - MinOf(xs)
  }

  function Xs(ps: seq<Point>): (r: seq<int>)
    ensures |r| == |ps|
    ensures forall i :: 0 <= i < |ps| ==> r[i] == ps[i].x
  {
    seq(|ps|, i requires 0 <= i < |ps| => ps[i].x)
  }

  function Ys(ps: seq<Point>): (r: seq<int>)
    ensures |r| == |ps|
    ensures forall i :: 0 <= i < |ps| ==> r[i] == ps[i].y
  {
    seq(|ps|, i requires 0 <= i < |ps| => ps[i].y)
  }

  /** `max(x) - min(x)` over a set of points, as a real. */
  function SpreadX(ps: seq<Point>): (r: real)
    requires |ps| > 0
    ensures 0.0 <= r
    ensures forall i, j :: 0 <= i < |ps| && 0 <= j < |ps| ==> (ps[i].x - ps[j].x) as real <= r
    ensures exists i, j :: 0 <= i < |ps| && 0 <= j < |ps| && (ps[i].x - ps[j].x) as real == r
  {
    var xs := Xs(ps);
    var e := Extent(xs);
    assert forall i, j :: 0 <= i < |ps| && 0 <= j < |ps| ==> ps[i].x - ps[j].x == xs[i] - xs[j];
    e as real
  }

  /** `max(y) - min(y)` over a set of points, as a real. */
  function SpreadY(ps: seq<Point>): (r: real)
    requires |ps| > 0
    ensures 0.0 <= r
    ensures forall i, j :: 0 <= i < |ps| && 0 <= j < |ps| ==> (ps[i].y - ps[j].y) as real <= r
    ensures exists i, j :: 0 <= i < |ps| && 0 <= j < |ps| && (ps[i].y - ps[j].y) as real == r
  {
    var ys := Ys(ps);
    var e := Extent(ys);
    assert forall i, j :: 0 <= i < |ps| && 0 <= j < |ps| ==> ps[i].y - ps[j].y == ys[i] - ys[j];
    e as real
  }

  // ---------------------------------------------------------------------
  // Largest pairwise distance (cdist followed by max)

  function SquaredDistance(p: Point, q: Point): (d: int)
    ensures 0 <= d
  {
    (p.x - q.x) * (p.x - q.x) + (p.y - q.y) * (p.y - q.y)
  }

  /** The largest squared distance from `p` to a point of `qs`. */
  function MaxSquaredDistanceFrom(p: Point, qs: seq<Point>): (r: int)
    requires |qs| > 0
    ensures forall j :: 0 <= j < |qs| ==> SquaredDistance(p, qs[j]) <= r
    ensures exists j :: 0 <= j < |qs| && SquaredDistance(p, qs[j]) == r
  {
    var here := SquaredDistance(p, qs[0]);
    if |qs| == 1 then here
    else
      var rest := MaxSquaredDistanceFrom(p, qs[1..]);
      assert forall j :: 1 <= j < |qs| ==> qs[j] == qs[1..][j - 1];
      if rest <= here then here else rest
  }

  /** The largest squared distance between a point of `ps` and a point of `qs`. */
  function MaxSquaredDistance(ps: seq<Point>, qs: seq<Point>): (r: int)
    requires |ps| > 0 && |qs| > 0
    ensures forall i, j :: 0 <= i < |ps| && 0 <= j < |qs| ==> SquaredDistance(ps[i], qs[j]) <= r
    ensures exists i, j :: 0 <= i < |ps| && 0 <= j < |qs| && SquaredDistance(ps[i], qs[j]) == r
  {
    var here := MaxSquaredDistanceFrom(ps[0], qs);
    if |ps| == 1 then here
    else
      var rest := MaxSquaredDistance(ps[1..], qs);
      assert forall i :: 1 <= i < |ps| ==> ps[i] == ps[1..][i - 1];
      if rest <= here then here else rest
  }

  /** `np.max(cdist(all_points, all_points))`: the largest Euclidean
      distance between two of the points, attained by some pair. */
  function MaxRadius(ps: seq<Point>, root: Root): (r: real)
    requires |ps| > 0
    requires IsSquareRoot(root)
    ensures 0.0 <= r
    ensures forall i, j :: 0 <= i < |ps| && 0 <= j < |ps| ==>
      root(SquaredDistance(ps[i], ps[j]) as real) <= r
    ensures exists i, j ::
      (0 <= i < |ps| && 0 <= j < |ps| && root(SquaredDistance(ps[i], ps[j]) as real) == r)
  {
    var m := MaxSquaredDistance(ps, ps);
    assert forall i, j :: 0 <= i < |ps| && 0 <= j < |ps| ==>
      root(SquaredDistance(ps[i], ps[j]) as real) <= root(m as real) by {
      forall i, j | 0 <= i < |ps| && 0 <= j < |ps|
        ensures root(SquaredDistance(ps[i], ps[j]) as real) <= root(m as real)
      {
        RootMonotonic(root, SquaredDistance(ps[i], ps[j]) as real, m as real);
      }
    }
    root(m as real)
  }
}

=== FILE: wrappers.dfy ===
/** Optional values and results with an error: `Option` carries "nothing
    fired" (the selector's first detection and a frame's outcome), `Result`
    the exception a frame can raise. */
module Wrappers {

  datatype Option<+T> = None | Some(value: T)

  datatype Result<+R, +E> = Success(value: R) | Failure(error: E)
}
